=== FILE: README.md ===
# Transcendence API gateway and dashboard: a Dafny model

This project models the small pieces of logic in the Transcendence gateway
and its browser dashboard:

- **The correlated reply wait of `GET /api/users`** (`srcs/api/routes.js`).
  The handler checks that both Redis connections are `'ready'`. It then
  subscribes to `user_response:<correlationId>`, arms a 5-second timer,
  registers a `message` listener and publishes
  `{action: 'get_users', correlationId, replyChannel}` on `user_requests`.
  It answers with the first reply on its channel, or with a timeout.
  Module `ReplyWait` treats the handler as a state machine. The
  environment is a finite trace of `Event`s: completion of subscribe and
  publish, messages delivered to the shared subscriber, and the timer
  firing. `Step` is the handler's reaction to one event, and `Run` folds it
  over a trace. Everything the handler does is appended to an `Effect` log.
  Module `ReplyWaitProperties` proves an invariant of every reachable state
  and derives the ordering and single-shot properties from it.
- **The readiness guard and `/api/health`** (module `Gateway`):
  `isRedisReady` and the `connected` flag.
- **The uptime display** (module `Uptime`): `updateUptime` in
  `srcs/nginx/html/index.ts` and its compiled copy in
  `srcs/nginx/html/app.js`. The two copies are identical, and one
  definition models both.
- **The status decisions of the dashboard**: `HealthChecker` in
  `index.ts` (module `Dashboard`) and the older sequential `checkHealth` in
  `app.js` (module `LegacyDashboard`). Both are pure functions from which
  DOM elements exist and what each `fetch` returned (module `Fetch`).

JSON decoding of a reply body is the abstract parameter
`parse: string -> Option<J>`. `None` means `JSON.parse` threw.
`JSON.stringify` of the request is not modelled: the log records the
structured `Envelope`.

The model follows the handler as written:

- On a timeout the handler does not remove its listener and does not
  unsubscribe.
- A failed publish leaves the timer and the listener live.
- Every failure that the route's `try`/`catch` (routes.js:113-115) catches
  answers 500 with the error's message: a failed subscribe, a failed
  publish, and the timeout rejection once the handler awaits the reply.
  The route has no separate error kinds. A `JSON.parse` failure inside the
  listener is thrown outside that `try`/`catch` and gives no answer.
- A 503 is only ever the "Redis not available" answer of the guard.

## Model

| member | source | states |
|---|---|---|
| `Gateway.IsRedisReady` | srcs/api/routes.js:4-6 | a client is ready iff it exists and its status is exactly `'ready'`; its contract is carried by `UnavailableIffNotReady` and `Gateway.Health` |
| `Gateway.Health` | srcs/api/routes.js:121-130 | `/api/health` reports both client statuses, and `connected` is true iff both statuses are `'ready'`; a missing client makes the handler fail |
| `ReplyWait.ReplyChannel` | srcs/api/routes.js:81 | the reply channel is `user_response:` followed by exactly the correlation id |
| `ReplyWait.Request` | srcs/api/routes.js:103-107 | the published request asks for `get_users`, carries the correlation id, and names a reply channel that is `user_response:` followed by that same id |
| `ReplyWait.Begin` | srcs/api/routes.js:72-84 | the guard: the handler stops with the 503 answer iff a client is not ready; otherwise its only effect is the call to subscribe to its reply channel, with nothing else installed yet (the invariant starts here, `BeginInv`) |
| `ReplyWait.OnReply` | srcs/api/routes.js:91-98 | the matching message clears the timer and removes the listener first; if the body parses, the resolve and the unsubscribe come next in that order, a pending promise resolves with the parsed value, and a settled one is kept; if it does not parse, the model stops right after the first two |
| `ReplyWait.OnTimeout` | srcs/api/routes.js:87-89 | the timer callback records the rejection, rejects a pending promise with 'Timeout waiting for user-service', keeps a settled one, and leaves the listener and the subscription alone |
| `ReplyWait.Step` | srcs/api/routes.js:83-116 | one event never shortens the log, never changes a sent answer or a settled promise; a message on another channel, or any message once the listener is gone, changes nothing |
| `ReplyWait.Run` | srcs/api/routes.js:70-116 | over any trace, the log only grows, a sent answer and a settled promise never change; the model stops at a `JSON.parse` failure and claims nothing after it |
| `ReplyWait.Handle` | srcs/api/routes.js:70-116 | a whole request: the first effect is the subscribe call when both clients are ready and the 503 answer otherwise, and a 503 is final |
| `ReplyWaitProperties.HandleInv` | srcs/api/routes.js:70-116 | every reachable state satisfies the invariant tying the listener, timer, subscription and promise flags to how often each effect occurred |
| `ReplyWaitProperties.RunInv` | srcs/api/routes.js:83-101 | every trace preserves that invariant |
| `ReplyWaitProperties.StepInv` | srcs/api/routes.js:86-101 | every single event preserves that invariant |
| `ReplyWaitProperties.NotReadyAnswers503` | srcs/api/routes.js:72-78 | if either client is not ready, the route answers 503 'Redis not available' from 'user-service', and in every trace that is its only effect (no subscribe, no publish) |
| `ReplyWaitProperties.UnavailableIffNotReady` | srcs/api/routes.js:4-6 | the 503 answer appears iff one of the clients is missing or has a status other than `'ready'` |
| `ReplyWaitProperties.SubscribeBeforePublish` | srcs/api/routes.js:84-109 | in every trace that contains a publish, the first effect is the subscribe to `user_response:<id>`, the publish comes later, and it is `{get_users, id, user_response:<id>}` on `user_requests` |
| `ReplyWaitProperties.PublishNeedsSubscribeOk` | srcs/api/routes.js:84-109 | `subscribe` is awaited: in any trace without a completed subscribe, no timer is armed, no listener is added and nothing is published |
| `ReplyWaitProperties.AtMostOnce` | srcs/api/routes.js:86-101 | in every trace there is at most one subscribe, publish, unsubscribe, resolve and reject, and exactly one answer once an answer exists |
| `ReplyWaitProperties.SuccessMeansCleanedUp` | srcs/api/routes.js:92-112 | a 200 answer carries the value of a recorded resolve, and by then the timer is cleared, the listener removed and the channel unsubscribed |
| `ReplyWaitProperties.ListenerWithinSubscription` | srcs/api/routes.js:87-100 | the listener is only live while the channel is subscribed; a live timer means no reply has come yet; the only rejection is the timeout |
| `ReplyWaitProperties.ReplyChannelInjective` | srcs/api/routes.js:80-81 | two reply channels are equal iff their correlation ids are |
| `ReplyWaitProperties.OtherRequestsReplyIgnored` | srcs/api/routes.js:91-92 | a reply on another request's channel leaves this wait unchanged |
| `ReplyWaitProperties.ForeignMessagesIgnored` | srcs/api/routes.js:91-92 | any sequence of messages on other channels leaves the wait unchanged: no settling, no timer or listener change, no unsubscribe |
| `ReplyWaitProperties.LateMessagesIgnored` | srcs/api/routes.js:93-94 | once the listener is removed, no later message, duplicates included, changes anything |
| `ReplyWaitProperties.FirstReplyResolves` | srcs/api/routes.js:92-97 | the first reply clears the timer, removes the listener, resolves with the parsed body and unsubscribes, in that order; it answers 200 if the handler is awaiting; after a timeout the promise and the answer stay as they were |
| `ReplyWaitProperties.TimeoutRejects` | srcs/api/routes.js:87-114 | a timer firing before any reply rejects with 'Timeout waiting for user-service'; if the handler is already awaiting the reply, that becomes the 500 answer, and if publish is still pending, nothing is answered yet; either way the listener stays registered and the channel stays subscribed |
| `ReplyWaitProperties.ConnectedIffUsersRouteProceeds` | srcs/api/routes.js:127 | `/api/health` reports `connected` iff `/api/users` gets past its guard and subscribes |
| `ReplyWaitProperties.Published` | srcs/api/routes.js:84-109 | after subscribe and publish succeed, the log is exactly subscribe, arm timer, add listener, publish, and the handler awaits with everything live |
| `ReplyWaitProperties.ReplyScenario` | srcs/api/routes.js:84-112 | subscribe, publish, any messages for other channels, then a parseable reply: the answer is 200 with the parsed body, the log is exactly known, and nothing is left subscribed |
| `ReplyWaitProperties.TimeoutScenario` | srcs/api/routes.js:86-114 | subscribe, publish, foreign messages only, then the timer: the answer is 500 with the timeout message, and the listener and subscription are left in place |
| `ReplyWaitProperties.EarlyReplyScenario` | srcs/api/routes.js:86-111 | a reply that arrives before publish completes is still answered with 200 once publish completes |
| `ReplyWaitProperties.PublishFailureScenario` | srcs/api/routes.js:109-114 | a failed publish answers 500 with the transport's message while the timer and the listener stay live |
| `ReplyWaitProperties.SubscribeFailureAnswers500` | srcs/api/routes.js:83-84 | a failed subscribe answers 500 with its message, whatever follows; the log is exactly the subscribe and that answer, so no timer, listener or publish is ever installed |
| `ReplyWaitProperties.PublishFailedStep` | srcs/api/routes.js:109-114 | in any state that waits on `publish`, its failure answers 500 with the transport's message and leaves timer, listener, subscription and promise exactly as they were |
| `ReplyWaitProperties.PublishFailureAnswers500` | srcs/api/routes.js:109-114 | after every trace that leaves the handler waiting on `publish`, a publish failure adds only the 500 answer to the log and changes none of timer, listener, subscription or promise |
| `Uptime.Decompose` | srcs/nginx/html/index.ts:177-180 | minutes and seconds are below 60, and h·3600000 + m·60000 + s·1000 ≤ elapsed < that + 1000 |
| `Uptime.DecomposeBounds` | srcs/nginx/html/app.js:30-33 | the same bounds, stated for the three divisions as written |
| `Uptime.DecomposeUnique` | srcs/nginx/html/index.ts:178-180 | the result is the only (h, m<60, s<60) that rebuilds elapsed to within one second from below |
| `Uptime.LexGap` | srcs/nginx/html/index.ts:178-180 | between well-formed parts, a lexicographic step up is worth at least one second |
| `Uptime.DecomposeMonotone` | srcs/nginx/html/index.ts:177-180 | a larger elapsed never yields a lexicographically smaller (h, m, s) |
| `Uptime.DecimalString` | srcs/nginx/html/index.ts:182 | `toString()` gives at least one decimal digit, has no leading zero except for 0, and is one digit iff the number is below 10 |
| `Uptime.DecimalRoundTrip` | srcs/nginx/html/app.js:34 | reading the decimal digits back gives the number |
| `Uptime.PadStart` | srcs/nginx/html/index.ts:182 | `padStart` keeps the string as its suffix, fills the front with the fill character, and reaches the width exactly when the string was shorter |
| `Uptime.LeadingZeros` | srcs/nginx/html/index.ts:182 | zero padding does not change the value the digits denote |
| `Uptime.Field` | srcs/nginx/html/app.js:34 | each field is all digits, at least two wide, and exactly two wide below 100 |
| `Uptime.FieldRoundTrip` | srcs/nginx/html/index.ts:182 | a padded field reads back as the number it shows |
| `Uptime.FormatUptime` | srcs/nginx/html/index.ts:176-182 | `updateUptime`'s text is hours of two or more digits, `:`, two minute digits, `:`, two second digits; `FormatUptimeRoundTrip` reads it back to exactly the computed parts |
| `Uptime.FormatRoundTrip` | srcs/nginx/html/app.js:34 | parsing the `HH:MM:SS` text of well-formed parts gives those parts back |
| `Uptime.FormatUptimeRoundTrip` | srcs/nginx/html/index.ts:176-182 | parsing the displayed uptime text gives exactly the computed (h, m, s) |
| `Dashboard.UpdateStatus` | srcs/nginx/html/index.ts:6-20 | nothing is painted iff the dot or the label is missing; otherwise the colour follows `isOnline` and the label shows `onlineText` iff online (when the texts differ) |
| `Dashboard.CheckNginx` | srcs/nginx/html/index.ts:34-51 | the nginx check passes iff `/health` answered `ok`, and it paints its row accordingly |
| `Dashboard.CheckApi` | srcs/nginx/html/index.ts:93-114 | the API check passes iff `/api/health` answered `ok` with a body that `json()` could parse, because the body is parsed before `ok` is tested; the parsed value is never read, so a `null` body passes |
| `Dashboard.CheckBackend` | srcs/nginx/html/index.ts:53-91 | the users and redis checks pass iff the response is `ok` with a body that `json()` could parse (`null` included) and the row's dot exists |
| `Dashboard.CheckAllServices` | srcs/nginx/html/index.ts:116-132 | the badge exists iff the status element does; it reads 'Online' iff all four checks passed, and '✗ Offline' otherwise |
| `Dashboard.OnlineBadgeIff` | srcs/nginx/html/index.ts:124-130 | the badge reads 'Online' iff nginx is reachable, the three API endpoints answered `ok` with a parseable body (`null` included), and the users and redis dots exist |
| `Dashboard.RowsShowVerdicts` | srcs/nginx/html/index.ts:13-20 | every painted row shows 'Ready' in green iff its check passed, and 'Offline' in red iff it failed |
| `LegacyDashboard.TryBlock` | srcs/nginx/html/app.js:47-74 | the `try` throws iff nginx is not `ok`, its dot is missing, or the API is not `ok` with a non-null JSON body; the API is queried iff nginx passed; '✓ Online' is written and the nginx dot turns green exactly then; the API row can only turn 'Ready' |
| `LegacyDashboard.CatchBlock` | srcs/nginx/html/app.js:75-89 | the `catch` appends exactly one '✗ Offline' when the badge exists, turns an existing nginx dot red even if nginx passed, and paints a complete API row 'Offline' in red |
| `LegacyDashboard.CheckHealth` | srcs/nginx/html/app.js:40-90 | `/api/health` is fetched iff nginx answered `ok` and its dot exists; at most two badge writes, each '✓ Online' or '✗ Offline' |
| `LegacyDashboard.NginxDownMeansOffline` | srcs/nginx/html/app.js:48-82 | nginx not ok (or its dot missing): the API is never queried, the only badge write is '✗ Offline' and the nginx dot turns red |
| `LegacyDashboard.ApiDownOverridesOnline` | srcs/nginx/html/app.js:51-88 | nginx ok but the API not ok, not JSON, or JSON `null` (reading `.status` of it throws): '✓ Online' is written, then overwritten by '✗ Offline', and the API row is painted offline |
| `LegacyDashboard.UnrecognisedStatusKeepsOnline` | srcs/nginx/html/app.js:59-70 | both ok and the API body is JSON other than `null`, but its status is neither 'ok' nor 'healthy': the badge stays '✓ Online' and the API row is untouched |
| `LegacyDashboard.ApiReadyIff` | srcs/nginx/html/app.js:59-68 | the API row turns 'Ready' iff nginx is up, the API answered `ok` with status 'ok' or 'healthy', and the row's elements exist |
| `LegacyDashboard.FinalBadgeIff` | srcs/nginx/html/app.js:47-80 | the badge finally reads '✓ Online' iff nginx is up with its dot and the API answered `ok` with JSON other than `null`; otherwise it reads '✗ Offline' |

## Left out

- srcs/api/index.js: the Fastify bootstrap, `listen` and `process.exit` are I/O wiring.
- The `/api` info route, the `/api/redis` ping route and the `/api/game*` placeholder: they only wrap Redis and Fastify calls, which are not part of this model.
- Real Redis I/O: `subscribe`, `publish` and `unsubscribe` are effects in the log, and their completions are trace events. The `unsubscribe` call is not awaited in the source, so the model has no event for its completion.
- Timers and `Date.now()`: the 5-second timeout is the `TimerFired` event, and elapsed time is a non-negative parameter. Negative elapsed time (a clock set back) is excluded. For the positive divisors used here, `Math.floor(a / b)` agrees with Dafny's `/` even for negative `a`, but JavaScript's `%` keeps the sign of the dividend while Dafny's is never negative. So negative elapsed gives negative minutes and seconds in the source (an elapsed time of -1 ms shows `-1:-1:-1`), which the model does not represent.
- `randomUUID`: the correlation id is a parameter. Its uniqueness is assumed and not modelled.
- `JSON.parse` and `JSON.stringify`: parsing is an abstract function. When it throws inside the listener, the model records the two actions that came before it (clear timer, remove listener), sets `faulted`, and claims nothing after that, since the outcome depends on the event emitter.
- ReplyWait.Step: a timer that fires while `publish` is still pending rejects `responsePromise` before `await responsePromise` (routes.js:111) has attached a handler. Under Node's default unhandled-rejection policy that ends the process. The model instead keeps the rejection and answers 500 once publish completes. The process-level policy is not part of this model.
- ReplyWait.Step: the same applies when the timer fires after a failed publish has already been answered with 500. The model records the rejection and nothing else.
- Several requests in flight on one shared subscriber: concurrency is not modelled. Per-request filtering is covered by `OtherRequestsReplyIgnored` and `ForeignMessagesIgnored`.
- Dashboard DOM detail: CSS class strings, the parent-opacity change in `updateStatus`, `createParticles` (random), `updateTime` (`toLocaleTimeString`), `setInterval` polling, and the refresh button animation.
- `fetch` is reduced to network error, or `ok` plus one of three bodies: not JSON, the JSON literal `null`, or another JSON value (with its `status` field if that is a string).
- Uptime arithmetic is on unbounded integers. JavaScript's floating-point numbers agree with it for elapsed times below 2^53 ms.

=== FILE: basics.dfy ===
/** Small shared vocabulary: an optional value, used for the source's
    `null` / `undefined` results and for absent DOM elements. */
module Basics {

  /** `None` stands for JavaScript's `null` or `undefined`. */
  datatype Option<+T> = None | Some(value: T)
}

=== FILE: dashboard.dfy ===
/** The dashboard's `HealthChecker` (srcs/nginx/html/index.ts:3-137): four
    service checks, each painting its row's dot and label, and the overall
    status badge. The DOM is reduced to which elements exist and what text
    and colour they end up with. */
module Dashboard {
  import opened Basics
  import opened Fetch

  const ReadyText: string := "Ready"
  const OfflineText: string := "Offline"
  const OnlineBadge: string := "Online"
  const OfflineBadge: string := "✗ Offline"

  /** The elements of one service row: its dot (found by id) and the label
      two siblings after it (`caption`). */
  datatype Row = Row(dot: bool, caption: bool)

  /** What `updateStatus` paints: the label text, and whether dot and label
      are green (`true`) or red. */
  datatype Indicator = Indicator(text: string, green: bool)

  /** `updateStatus(dot, label, isOnline, onlineText, offlineText)`: nothing
      when either element is missing. */
  function UpdateStatus(dot: bool, caption: bool, isOnline: bool, onlineText: string, offlineText: string)
    : (r: Option<Indicator>)
    ensures r.None? <==> !dot || !caption
    ensures r.Some? ==> r.value.green == isOnline
    ensures r.Some? && onlineText != offlineText ==> (r.value.text == onlineText <==> isOnline)
    ensures r.Some? ==> r.value.text == onlineText || r.value.text == offlineText
  {
    if !dot || !caption then None
    else Some(Indicator(if isOnline then onlineText else offlineText, isOnline))
  }

  /** A service check: its verdict and what it painted. */
  datatype Check = Check(online: bool, indicator: Option<Indicator>)

  /** The two endings of every check: `updateStatus(…, true)` and `return
      true` in the `try`, or `updateStatus(…, false)` and `return false` in
      the `catch`. */
  function Pass(row: Row): Check {
    Check(true, UpdateStatus(row.dot, row.caption, true, ReadyText, OfflineText))
  }

  function Fail(row: Row): Check {
    Check(false, UpdateStatus(row.dot, row.caption, false, ReadyText, OfflineText))
  }

  /** `checkNginx`: `/health` answered `ok`; the body is not read. */
  function CheckNginx(response: Outcome, row: Row): (c: Check)
    ensures c.online <==> Reachable(response)
    ensures c.indicator == UpdateStatus(row.dot, row.caption, c.online, ReadyText, OfflineText)
  {
    match response
    case NetworkError => Fail(row)
    case Response(ok, _) => if ok then Pass(row) else Fail(row)
  }

  /** `checkAPI`: the body of `/api/health` is parsed before `ok` is
      looked at, so a body that is not JSON fails the check; the parsed
      value is never read, so a `null` body passes like any other. */
  function CheckApi(response: Outcome, row: Row): (c: Check)
    ensures c.online <==> ParsedOk(response)
    ensures c.indicator == UpdateStatus(row.dot, row.caption, c.online, ReadyText, OfflineText)
  {
    match response
    case NetworkError => Fail(row)
    case Response(ok, body) =>
      if body.NotJson? then Fail(row)
      else if ok then Pass(row) else Fail(row)
  }

  /** `checkUsers` and `checkRedis` (the same code): as `checkAPI`, and the
      row's dot must also exist. */
  function CheckBackend(response: Outcome, row: Row): (c: Check)
    ensures c.online <==> ParsedOk(response) && row.dot
    ensures c.indicator == UpdateStatus(row.dot, row.caption, c.online, ReadyText, OfflineText)
  {
    match response
    case NetworkError => Fail(row)
    case Response(ok, body) =>
      if body.NotJson? then Fail(row)
      else if ok && row.dot then Pass(row) else Fail(row)
  }

  /** The elements `checkAllServices` looks up. */
  datatype Page = Page(badge: bool, nginx: Row, api: Row, users: Row, redis: Row)

  /** The answers of the four endpoints: `/health`, `/api/health`,
      `/api/users`, `/api/redis`. */
  datatype Responses = Responses(nginx: Outcome, api: Outcome, users: Outcome, redis: Outcome)

  /** What one round of `checkAllServices` leaves on the page; `badge` is
      `None` when there is no status element. */
  datatype View = View(badge: Option<string>, nginx: Check, api: Check, users: Check, redis: Check)

  function CheckAllServices(page: Page, responses: Responses): (v: View)
    ensures v.badge.Some? <==> page.badge
    ensures v.badge.Some? ==> (v.badge.value == OnlineBadge <==>
                               v.nginx.online && v.api.online && v.users.online && v.redis.online)
    ensures v.badge.Some? ==> v.badge.value == OnlineBadge || v.badge.value == OfflineBadge
  {
    var nginx := CheckNginx(responses.nginx, page.nginx);
    var api := CheckApi(responses.api, page.api);
    var users := CheckBackend(responses.users, page.users);
    var redis := CheckBackend(responses.redis, page.redis);
    var badge :=
      if !page.badge then None
      else if nginx.online && api.online && redis.online && users.online then Some(OnlineBadge)
      else Some(OfflineBadge);
    View(badge, nginx, api, users, redis)
  }

  /** The badge reads 'Online' exactly when `/health` answered `ok`, the
      three API endpoints answered `ok` with a JSON body, and the users and
      redis dots exist. */
  lemma OnlineBadgeIff(page: Page, responses: Responses)
    requires page.badge
    ensures CheckAllServices(page, responses).badge == Some(OnlineBadge) <==>
      && Reachable(responses.nginx) && ParsedOk(responses.api)
      && ParsedOk(responses.users) && page.users.dot
      && ParsedOk(responses.redis) && page.redis.dot
  {
  }

  /** Every row whose dot and label exist shows 'Ready' in green exactly
      when its check passed, and 'Offline' in red otherwise. */
  lemma RowsShowVerdicts(page: Page, responses: Responses)
    ensures var v := CheckAllServices(page, responses);
      forall c | c in [v.nginx, v.api, v.users, v.redis] ::
        c.indicator.Some? ==> (c.indicator.value.text == ReadyText <==> c.online)
                              && c.indicator.value.green == c.online
                              && (c.indicator.value.text == OfflineText <==> !c.online)
  {
  }
}

=== FILE: fetch.dfy ===
/** What the dashboard can learn from one `fetch` of a health endpoint. */
module Fetch {
  import opened Basics

  /** The result of `await response.json()`: `NotJson` when it rejects,
      `Null` when the body is the JSON literal `null` (so reading `.status`
      of it throws), and otherwise `Json` with the value's `status` field,
      if that field is a string. */
  datatype Body = NotJson | Null | Json(status: Option<string>)

  /** `NetworkError` when `fetch` itself rejects; otherwise the response's
      `ok` flag (HTTP status 200-299) and its body. */
  datatype Outcome = NetworkError | Response(ok: bool, body: Body)

  /** The response arrived and is `ok`, whatever its body. */
  predicate Reachable(o: Outcome) {
    o.Response? && o.ok
  }

  /** The response arrived, is `ok`, and `json()` resolved (to any value,
      `null` included). */
  predicate ParsedOk(o: Outcome) {
    o.Response? && o.ok && !o.body.NotJson?
  }

  /** As `ParsedOk`, and the value is not `null`, so its `status` can be
      read. */
  predicate StatusReadable(o: Outcome) {
    o.Response? && o.ok && o.body.Json?
  }
}

=== FILE: gateway.dfy ===
/** The API gateway's view of its two Redis connections (srcs/api/routes.js):
    the readiness guard shared by the routes and the `/api/health` report. */
module Gateway {
  import opened Basics

  /** A Redis client handle; only its connection status is observable here. */
  datatype Client = Client(status: string)

  /** The status string a connected client reports. */
  const ReadyStatus: string := "ready"

  /** `isRedisReady`: a client is usable when it exists and its status is
      exactly `'ready'`. */
  predicate IsRedisReady(c: Option<Client>) {
    c.Some? && c.value.status == ReadyStatus
  }

  /** Both connections (publisher and subscriber) are usable. */
  predicate BothReady(publisher: Option<Client>, subscriber: Option<Client>) {
    IsRedisReady(publisher) && IsRedisReady(subscriber)
  }

  /** Body of `/api/health`. Reading `.status` of a missing client throws,
      which the HTTP framework turns into an internal error. */
  datatype HealthResponse =
    | Healthy(publisher: string, subscriber: string, connected: bool)
    | InternalError

  /** The `/api/health` handler. */
  function Health(publisher: Option<Client>, subscriber: Option<Client>): (r: HealthResponse)
    ensures r.Healthy? <==> publisher.Some? && subscriber.Some?
    ensures r.Healthy? ==> r.publisher == publisher.value.status && r.subscriber == subscriber.value.status
    ensures r.Healthy? ==> (r.connected <==> publisher.value.status == "ready" && subscriber.value.status == "ready")
  {
    if publisher.None? || subscriber.None? then InternalError
    else Healthy(publisher.value.status, subscriber.value.status, BothReady(publisher, subscriber))
  }
}

=== FILE: legacy_dashboard.dfy ===
/** The older dashboard's `checkHealth` (srcs/nginx/html/app.js:40-90):
    `/health` first, then `/api/health`, inside one `try`; any failure jumps
    to the `catch`, which paints everything offline. The DOM is reduced to
    which elements exist and what they end up showing. */
module LegacyDashboard {
  import opened Basics
  import opened Fetch

  const OnlineBadge: string := "✓ Online"
  const OfflineBadge: string := "✗ Offline"
  const ReadyText: string := "Ready"
  const OfflineText: string := "Offline"

  /** API `status` values accepted as healthy. */
  predicate AcceptedStatus(s: Option<string>) {
    s == Some("ok") || s == Some("healthy")
  }

  /** The elements `checkHealth` looks up: the status badge, the nginx dot,
      and the API dot with its block and its label. */
  datatype Page = Page(badge: bool, nginxDot: bool, apiDot: bool, apiBlock: bool, apiLabel: bool) {
    /** The API row is painted only when all three of its elements exist. */
    predicate ApiRow() { apiDot && apiBlock && apiLabel }
  }

  /** How a dot was left. */
  datatype Light = Untouched | Green | Red

  /** What the API row shows, when painted: its label text and its dot. */
  datatype ApiMark = Unpainted | Painted(text: string, light: Light)

  /** What one call leaves behind. `badgeWrites` lists the texts written to
      the badge, in order; the last one is what the user sees. */
  datatype View = View(badgeWrites: seq<string>, nginx: Light, api: ApiMark, apiQueried: bool)

  /** Progress through the `try` block: the view so far and whether it threw. */
  datatype Attempt = Attempt(view: View, threw: bool)

  /** The `try` block. */
  function TryBlock(page: Page, nginx: Outcome, api: Outcome): (t: Attempt)
    ensures t.threw <==> !(Reachable(nginx) && page.nginxDot && StatusReadable(api))
    ensures t.view.apiQueried <==> Reachable(nginx) && page.nginxDot
    ensures t.view.badgeWrites == if t.view.apiQueried && page.badge then [OnlineBadge] else []
    ensures t.view.nginx == if t.view.apiQueried then Green else Untouched
    ensures t.view.api != Unpainted ==> !t.threw && t.view.api == Painted(ReadyText, Green)
  {
    var start := View([], Untouched, Unpainted, false);
    if !(nginx.Response? && nginx.ok && page.nginxDot) then Attempt(start, true)   // 'Nginx offline'
    else
      var shown := View(if page.badge then [OnlineBadge] else [], Green, Unpainted, true);
      match api
      case NetworkError => Attempt(shown, true)
      case Response(ok, body) =>
        if !ok then Attempt(shown, true)                                            // 'API offline'
        else match body
          case NotJson => Attempt(shown, true)                                      // json() rejected
          case Null => Attempt(shown, true)                                         // `null.status` throws
          case Json(status) =>
            if AcceptedStatus(status) && page.ApiRow()
            then Attempt(shown.(api := Painted(ReadyText, Green)), false)
            else Attempt(shown, false)
  }

  /** The `catch` block. */
  function CatchBlock(page: Page, v: View): (r: View)
    ensures r.apiQueried == v.apiQueried
    ensures v.badgeWrites <= r.badgeWrites && |r.badgeWrites| == |v.badgeWrites| + (if page.badge then 1 else 0)
    ensures page.badge ==> r.badgeWrites[|r.badgeWrites| - 1] == OfflineBadge
    ensures page.nginxDot ==> r.nginx == Red
    ensures page.ApiRow() ==> r.api == Painted(OfflineText, Red)
  {
    View(v.badgeWrites + (if page.badge then [OfflineBadge] else []),
         if page.nginxDot then Red else v.nginx,
         if page.ApiRow() then Painted(OfflineText, Red) else v.api,
         v.apiQueried)
  }

  function CheckHealth(page: Page, nginx: Outcome, api: Outcome): (v: View)
    ensures v.apiQueried <==> nginx.Response? && nginx.ok && page.nginxDot
    ensures |v.badgeWrites| <= 2
    ensures forall i | 0 <= i < |v.badgeWrites| :: v.badgeWrites[i] in {OnlineBadge, OfflineBadge}
  {
    var t := TryBlock(page, nginx, api);
    if t.threw then CatchBlock(page, t.view) else t.view
  }

  /** The badge text the user ends up seeing, if any was written. */
  function FinalBadge(v: View): Option<string> {
    if |v.badgeWrites| == 0 then None else Some(v.badgeWrites[|v.badgeWrites| - 1])
  }

  /** nginx down (or its dot missing): the badge says offline, the nginx
      dot turns red, and `/api/health` is never fetched. */
  lemma NginxDownMeansOffline(page: Page, nginx: Outcome, api: Outcome)
    requires !(Reachable(nginx) && page.nginxDot)
    ensures var v := CheckHealth(page, nginx, api);
      && !v.apiQueried
      && v.badgeWrites == (if page.badge then [OfflineBadge] else [])
      && v.nginx == (if page.nginxDot then Red else Untouched)
  {
  }

  /** nginx up, API not `ok`, not JSON or `null`: the earlier '✓ Online' is
      overwritten by '✗ Offline', and the API row is painted offline. */
  lemma ApiDownOverridesOnline(page: Page, nginx: Outcome, api: Outcome)
    requires Reachable(nginx) && page.nginxDot
    requires !StatusReadable(api)
    ensures var v := CheckHealth(page, nginx, api);
      && v.apiQueried
      && v.badgeWrites == (if page.badge then [OnlineBadge, OfflineBadge] else [])
      && v.nginx == Red
      && v.api == (if page.ApiRow() then Painted(OfflineText, Red) else Unpainted)
  {
  }

  /** Both up but the API's `status` is neither 'ok' nor 'healthy': the
      badge stays '✓ Online' and the API row is left as it was. */
  lemma UnrecognisedStatusKeepsOnline(page: Page, nginx: Outcome, api: Outcome)
    requires Reachable(nginx) && page.nginxDot
    requires StatusReadable(api) && !AcceptedStatus(api.body.status)
    ensures var v := CheckHealth(page, nginx, api);
      v.badgeWrites == (if page.badge then [OnlineBadge] else []) && v.api == Unpainted && v.nginx == Green
  {
  }

  /** The API row turns 'Ready' exactly when nginx is up, the API answered
      `ok` with status 'ok' or 'healthy', and the row's elements exist. */
  lemma ApiReadyIff(page: Page, nginx: Outcome, api: Outcome)
    ensures CheckHealth(page, nginx, api).api == Painted(ReadyText, Green) <==>
      && Reachable(nginx) && page.nginxDot
      && StatusReadable(api) && AcceptedStatus(api.body.status)
      && page.ApiRow()
  {
  }

  /** The badge finally reads '✓ Online' exactly when it exists, nginx is
      up with its dot present, and the API answered `ok` with a JSON body
      other than `null` (whatever its `status`); otherwise it finally reads '✗ Offline'. */
  lemma FinalBadgeIff(page: Page, nginx: Outcome, api: Outcome)
    requires page.badge
    ensures var b := FinalBadge(CheckHealth(page, nginx, api));
      && b.Some?
      && (b == Some(OnlineBadge) <==> Reachable(nginx) && page.nginxDot && StatusReadable(api))
      && (b != Some(OnlineBadge) ==> b == Some(OfflineBadge))
  {
  }
}

=== FILE: reply_wait.dfy ===
/** The correlated request/reply wait of the `/api/users` handler
    (srcs/api/routes.js:70-116), as a state machine.

    The handler's environment (Redis acknowledgements, messages delivered to
    the shared subscriber, the 5-second timer) is a finite sequence of
    `Event`s; `Step` is the handler's reaction to one of them, and `Run` folds
    `Step` over a trace.  Everything the handler does to the outside world is
    appended to the state's `log` as an `Effect`, so ordering properties are
    statements about that log.  JSON decoding is the abstract `parse`
    parameter: `None` means `JSON.parse` threw. */
module ReplyWait {
  import opened Basics
  import opened Gateway

  const RequestChannel: string := "user_requests"
  const ReplyPrefix: string := "user_response:"
  const GetUsersAction: string := "get_users"
  const TimeoutMessage: string := "Timeout waiting for user-service"
  const UnavailableMessage: string := "Redis not available"
  const UserService: string := "user-service"

  /** The channel the user service answers on for one request. */
  function ReplyChannel(correlationId: string): (ch: string)
    ensures |ch| == |ReplyPrefix| + |correlationId|
    ensures ch[..|ReplyPrefix|] == ReplyPrefix && ch[|ReplyPrefix|..] == correlationId
  {
    ReplyPrefix + correlationId
  }

  /** The request published on `user_requests` (before `JSON.stringify`). */
  datatype Envelope = Envelope(action: string, correlationId: string, replyChannel: string)

  function Request(correlationId: string): (e: Envelope)
    ensures e.action == GetUsersAction && e.correlationId == correlationId
    ensures |e.replyChannel| == |ReplyPrefix| + |e.correlationId|
    ensures e.replyChannel[..|ReplyPrefix|] == ReplyPrefix && e.replyChannel[|ReplyPrefix|..] == e.correlationId
  {
    Envelope(GetUsersAction, correlationId, ReplyChannel(correlationId))
  }

  /** The HTTP answer of the route. */
  datatype HttpReply<J> =
    | Success(data: J)                          // 200 {status: 'success', data}
    | ServerError(message: string)              // 500 {status: 'error', message: err.message}
    | Unavailable(message: string, service: string)  // 503 {status: 'error', message, service}

  function StatusCode<J>(r: HttpReply<J>): int {
    match r
    case Success(_) => 200
    case ServerError(_) => 500
    case Unavailable(_, _) => 503
  }

  /** What the environment does: completions of the handler's awaited Redis
      calls, messages delivered to the shared subscriber, the timer firing. */
  datatype Event =
    | SubscribeOk
    | SubscribeFailed(message: string)
    | PublishOk
    | PublishFailed(message: string)
    | Message(channel: string, body: string)
    | TimerFired

  /** What the handler does, in the order it does it. `Resolve` and `Reject`
      record calls of the promise's functions; a call on a promise that is
      already settled changes nothing. */
  datatype Effect<J> =
    | Subscribe(channel: string)
    | ArmTimer
    | AddListener
    | Publish(channel: string, envelope: Envelope)
    | ClearTimer
    | RemoveListener
    | Resolve(value: J)
    | Reject(reason: string)
    | Unsubscribe(channel: string)
    | Respond(reply: HttpReply<J>)

  /** The response promise. */
  datatype Promise<J> = Pending | Resolved(value: J) | Rejected(reason: string)

  /** Where the handler's own control flow is suspended. */
  datatype Stage =
    | Subscribing   // awaiting `subscribe(replyChannel)`
    | Publishing    // listener and timer installed, awaiting `publish`
    | Awaiting      // awaiting the response promise
    | Replied       // the HTTP reply has been sent

  /** One in-flight `/api/users` request. `faulted` records that `JSON.parse`
      threw inside the listener; what follows that is not modelled. */
  datatype Wait<J> = Wait(
    correlationId: string,
    stage: Stage,
    subscribed: bool,
    timerArmed: bool,
    listening: bool,
    promise: Promise<J>,
    reply: Option<HttpReply<J>>,
    faulted: bool,
    log: seq<Effect<J>>)

  /** Entry of the handler: the readiness guard, then `subscribe` is issued. */
  function Begin<J>(publisher: Option<Client>, subscriber: Option<Client>, correlationId: string): (w: Wait<J>)
    ensures w.correlationId == correlationId && w.promise.Pending? && !w.faulted
    ensures !w.subscribed && !w.timerArmed && !w.listening
    ensures w.stage == Replied <==> !BothReady(publisher, subscriber)
    ensures !BothReady(publisher, subscriber) ==>
      w.reply == Some(Unavailable(UnavailableMessage, UserService)) && w.log == [Respond(w.reply.value)]
    ensures BothReady(publisher, subscriber) ==>
      w.stage == Subscribing && w.reply.None? && w.log == [Subscribe(ReplyChannel(correlationId))]
  {
    if !BothReady(publisher, subscriber) then
      var r := Unavailable(UnavailableMessage, UserService);
      Wait(correlationId, Replied, false, false, false, Pending, Some(r), false, [Respond(r)])
    else
      Wait(correlationId, Subscribing, false, false, false, Pending, None, false,
           [Subscribe(ReplyChannel(correlationId))])
  }

  /** Sends the HTTP reply. */
  function Send<J>(w: Wait<J>, r: HttpReply<J>): Wait<J> {
    w.(stage := Replied, reply := Some(r), log := w.log + [Respond(r)])
  }

  /** The continuation after `await responsePromise`, once the promise has
      settled and the handler is waiting on it. */
  function Deliver<J>(w: Wait<J>): Wait<J> {
    if w.stage != Awaiting then w
    else match w.promise
      case Pending => w
      case Resolved(v) => Send(w, Success(v))
      case Rejected(reason) => Send(w, ServerError(reason))
  }

  function Settle<J>(p: Promise<J>, q: Promise<J>): Promise<J> {
    if p.Pending? then q else p
  }

  /** The message listener, for a message on its own channel. */
  function OnReply<J>(parse: string -> Option<J>, w: Wait<J>, body: string): (r: Wait<J>)
    ensures !r.timerArmed && !r.listening
    ensures w.log + [ClearTimer, RemoveListener] <= r.log
    ensures parse(body).None? ==> r.faulted && r.log == w.log + [ClearTimer, RemoveListener]
    ensures parse(body).Some? ==> !r.subscribed && |r.log| >= |w.log| + 4
    ensures parse(body).Some? ==>
      r.log[|w.log| + 2..|w.log| + 4] == [Resolve(parse(body).value), Unsubscribe(ReplyChannel(w.correlationId))]
    ensures parse(body).Some? && w.promise.Pending? ==> r.promise == Resolved(parse(body).value)
    ensures !w.promise.Pending? ==> r.promise == w.promise
  {
    var cleared := w.(timerArmed := false, listening := false,
                      log := w.log + [ClearTimer, RemoveListener]);
    match parse(body)
    case None => cleared.(faulted := true)
    case Some(v) =>
      var ch := ReplyChannel(w.correlationId);
      Deliver(cleared.(promise := Settle(w.promise, Resolved(v)), subscribed := false,
                       log := cleared.log + [Resolve(v), Unsubscribe(ch)]))
  }

  /** The timer callback. */
  function OnTimeout<J>(w: Wait<J>): (r: Wait<J>)
    ensures !r.timerArmed && r.listening == w.listening && r.subscribed == w.subscribed
    ensures w.log + [Reject(TimeoutMessage)] <= r.log
    ensures w.promise.Pending? ==> r.promise == Rejected(TimeoutMessage)
    ensures !w.promise.Pending? ==> r.promise == w.promise
  {
    Deliver(w.(timerArmed := false, promise := Settle(w.promise, Rejected(TimeoutMessage)),
               log := w.log + [Reject(TimeoutMessage)]))
  }

  /** The handler's reaction to one event. */
  function Step<J>(parse: string -> Option<J>, w: Wait<J>, e: Event): (r: Wait<J>)
    ensures r.correlationId == w.correlationId
    ensures w.log <= r.log
    ensures w.stage == Replied ==> r.stage == Replied && r.reply == w.reply
    ensures !w.promise.Pending? ==> r.promise == w.promise
    ensures e.Message? && e.channel != ReplyChannel(w.correlationId) ==> r == w
    ensures e.Message? && !w.listening ==> r == w
    ensures w.faulted ==> r == w
  {
    if w.faulted then w
    else match e
      case SubscribeOk =>
        if w.stage != Subscribing then w
        else w.(stage := Publishing, subscribed := true, timerArmed := true, listening := true,
                log := w.log + [ArmTimer, AddListener,
                                Publish(RequestChannel, Request(w.correlationId))])
      case SubscribeFailed(m) =>
        if w.stage != Subscribing then w else Send(w, ServerError(m))
      case PublishOk =>
        if w.stage != Publishing then w else Deliver(w.(stage := Awaiting))
      case PublishFailed(m) =>
        if w.stage != Publishing then w else Send(w, ServerError(m))
      case Message(ch, body) =>
        if w.listening && ch == ReplyChannel(w.correlationId) then OnReply(parse, w, body) else w
      case TimerFired =>
        if w.timerArmed then OnTimeout(w) else w
  }

  /** The handler's reaction to a trace of events. */
  function Run<J>(parse: string -> Option<J>, w: Wait<J>, events: seq<Event>): (r: Wait<J>)
    ensures r.correlationId == w.correlationId
    ensures w.log <= r.log
    ensures w.stage == Replied ==> r.stage == Replied && r.reply == w.reply
    ensures !w.promise.Pending? ==> r.promise == w.promise
    ensures w.faulted ==> r == w
    decreases |events|
  {
    if |events| == 0 then w else Run(parse, Step(parse, w, events[0]), events[1..])
  }

  /** A whole `/api/users` request: the guard, then the trace. */
  function Handle<J>(publisher: Option<Client>, subscriber: Option<Client>, correlationId: string,
                     parse: string -> Option<J>, events: seq<Event>): (w: Wait<J>)
    ensures w.correlationId == correlationId && |w.log| >= 1
    ensures w.log[0] == if BothReady(publisher, subscriber) then Subscribe(ReplyChannel(correlationId))
                        else Respond(Unavailable(UnavailableMessage, UserService))
    ensures !BothReady(publisher, subscriber) ==> w.reply == Some(Unavailable(UnavailableMessage, UserService))
  {
    Run(parse, Begin(publisher, subscriber, correlationId), events)
  }
}

=== FILE: reply_wait_properties.dfy ===
/** Properties of the `/api/users` reply wait (srcs/api/routes.js:70-116):
    an invariant every reachable state keeps, and what it implies about the
    order and number of the handler's effects in every trace. */
module ReplyWaitProperties {
  import opened Basics
  import opened Gateway
  import opened ReplyWait

  /** The kind of an effect, for counting. */
  datatype Kind =
    | KSubscribe | KArmTimer | KAddListener | KPublish | KClearTimer
    | KRemoveListener | KResolve | KReject | KUnsubscribe | KRespond

  function KindOf<J>(e: Effect<J>): Kind {
    match e
    case Subscribe(_) => KSubscribe
    case ArmTimer => KArmTimer
    case AddListener => KAddListener
    case Publish(_, _) => KPublish
    case ClearTimer => KClearTimer
    case RemoveListener => KRemoveListener
    case Resolve(_) => KResolve
    case Reject(_) => KReject
    case Unsubscribe(_) => KUnsubscribe
    case Respond(_) => KRespond
  }

  /** How many effects of kind `k` the log holds. */
  function Count<J>(log: seq<Effect<J>>, k: Kind): nat {
    if |log| == 0 then 0
    else Count(log[..|log| - 1], k) + (if KindOf(log[|log| - 1]) == k then 1 else 0)
  }

  lemma CountSnoc<J>(log: seq<Effect<J>>, e: Effect<J>)
    ensures forall k :: Count(log + [e], k) == Count(log, k) + (if KindOf(e) == k then 1 else 0)
  {
    assert (log + [e])[..|log|] == log;
  }

  /** The four effects of a request that got past `subscribe`, in order. */
  function Opening<J>(correlationId: string): seq<Effect<J>> {
    [Subscribe(ReplyChannel(correlationId)), ArmTimer, AddListener,
     Publish(RequestChannel, Request(correlationId))]
  }

  /** Effects that only the listener, the timer or the final reply produce. */
  predicate Late<J>(e: Effect<J>) {
    !(e.Subscribe? || e.ArmTimer? || e.AddListener? || e.Publish?)
  }

  /** The state of a request whose guard failed. */
  ghost predicate Refused<J>(w: Wait<J>) {
    var r := Unavailable(UnavailableMessage, UserService);
    && w.stage == Replied && w.reply == Some(r) && w.log == [Respond(r)]
    && !w.subscribed && !w.timerArmed && !w.listening && w.promise.Pending? && !w.faulted
  }

  /** The state while `subscribe` is outstanding. */
  ghost predicate SubscribePending<J>(w: Wait<J>) {
    && w.stage == Subscribing && w.reply.None? && w.log == [Subscribe(ReplyChannel(w.correlationId))]
    && !w.subscribed && !w.timerArmed && !w.listening && w.promise.Pending? && !w.faulted
  }

  /** The state after `subscribe` rejected. */
  ghost predicate SubscribeRejected<J>(w: Wait<J>) {
    && w.stage == Replied && |w.log| == 2 && w.log[0] == Subscribe(ReplyChannel(w.correlationId))
    && w.log[1].Respond? && w.log[1].reply.ServerError? && w.reply == Some(w.log[1].reply)
    && !w.subscribed && !w.timerArmed && !w.listening && w.promise.Pending? && !w.faulted
  }

  /** The state after `subscribe` succeeded: the log opens with `Opening`,
      and the flags agree with how often each late effect happened. */
  ghost predicate Opened<J>(w: Wait<J>) {
    && |w.log| >= 4 && w.log[..4] == Opening(w.correlationId)
    && (forall i | 4 <= i < |w.log| :: Late(w.log[i]))
    && w.stage != Subscribing
    && (w.stage == Replied <==> w.reply.Some?)
    && Count(w.log, KSubscribe) == 1 && Count(w.log, KPublish) == 1
    && Count(w.log, KRespond) == (if w.reply.Some? then 1 else 0)
    && Count(w.log, KRemoveListener) == (if w.listening then 0 else 1)
    && Count(w.log, KResolve) == Count(w.log, KUnsubscribe)
    && Count(w.log, KResolve) <= Count(w.log, KRemoveListener)
    && Count(w.log, KReject) <= 1
    && (w.timerArmed ==> w.listening && Count(w.log, KReject) == 0)
    && (w.faulted ==> !w.listening)
    && (w.subscribed <==> Count(w.log, KUnsubscribe) == 0)
    && (w.promise.Pending? ==> Count(w.log, KResolve) == 0 && Count(w.log, KReject) == 0)
    && (w.promise.Resolved? ==> Resolve(w.promise.value) in w.log && Count(w.log, KResolve) == 1)
    && (w.promise.Rejected? ==> w.promise.reason == TimeoutMessage && Count(w.log, KReject) == 1)
    && (w.reply.Some? ==> !w.reply.value.Unavailable?)
    && (w.reply.Some? && w.reply.value.Success? ==> w.promise == Resolved(w.reply.value.data))
    && (w.stage == Awaiting ==> w.promise.Pending?)
  }

  ghost predicate Inv<J>(w: Wait<J>) {
    Refused(w) || SubscribePending(w) || SubscribeRejected(w) || Opened(w)
  }

  lemma BeginInv<J>(publisher: Option<Client>, subscriber: Option<Client>, correlationId: string)
    ensures var w := Begin<J>(publisher, subscriber, correlationId);
      Inv(w) && w.correlationId == correlationId
      && (BothReady(publisher, subscriber) ==> SubscribePending(w))
      && (!BothReady(publisher, subscriber) ==> Refused(w))
  {
  }

  /** The kinds of the effects in `Opening`. */
  predicate Early(k: Kind) {
    k == KSubscribe || k == KArmTimer || k == KAddListener || k == KPublish
  }

  lemma CountOpening<J>(correlationId: string)
    ensures forall k :: Count(Opening<J>(correlationId), k) == (if Early(k) then 1 else 0)
  {
    var ch := ReplyChannel(correlationId);
    var none: seq<Effect<J>> := [];
    var l0 := none + [Subscribe(ch)];
    var l1 := l0 + [ArmTimer];
    var l2 := l1 + [AddListener];
    var l3 := l2 + [Publish(RequestChannel, Request(correlationId))];
    assert l3 == Opening<J>(correlationId);
    CountSnoc(none, Subscribe(ch));
    CountSnoc(l0, ArmTimer);
    CountSnoc(l1, AddListener);
    CountSnoc(l2, Publish(RequestChannel, Request(correlationId)));
  }

  lemma OpenAfterSubscribe<J>(parse: string -> Option<J>, w: Wait<J>)
    requires SubscribePending(w)
    ensures Opened(Step(parse, w, SubscribeOk))
  {
    var r := Step(parse, w, SubscribeOk);
    assert r == Wait(w.correlationId, Publishing, true, true, true, Pending, None, false,
                     Opening(w.correlationId));
    CountOpening<J>(w.correlationId);
  }

  /** Appending one late effect keeps the opening and the `Late` tail. */
  lemma ExtendOpened<J>(log: seq<Effect<J>>, id: string, e: Effect<J>)
    requires |log| >= 4 && log[..4] == Opening(id) && (forall i | 4 <= i < |log| :: Late(log[i]))
    requires Late(e)
    ensures var l := log + [e];
      |l| >= 4 && l[..4] == Opening(id) && (forall i | 4 <= i < |l| :: Late(l[i]))
  {
    assert (log + [e])[..4] == log[..4];
  }

  lemma SendOpened<J>(w: Wait<J>, r: HttpReply<J>)
    requires Opened(w) && w.stage != Replied
    requires !r.Unavailable?
    requires r.Success? ==> w.promise == Resolved(r.data)
    requires w.stage == Awaiting ==> w.promise.Pending?
    ensures Opened(Send(w, r))
  {
    CountSnoc(w.log, Respond(r));
    ExtendOpened(w.log, w.correlationId, Respond(r));
  }

  /** `w` with a suspended `await responsePromise` forgotten. */
  function Loose<J>(w: Wait<J>): Wait<J> {
    if w.stage == Awaiting then w.(stage := Publishing) else w
  }

  lemma DeliverOpened<J>(w: Wait<J>)
    requires Opened(Loose(w))
    ensures Opened(Deliver(w))
  {
    if w.stage == Awaiting {
      match w.promise
      case Pending =>
      case Resolved(v) => SendOpened(w.(stage := Publishing), Success(v));
      case Rejected(reason) => SendOpened(w.(stage := Publishing), ServerError(reason));
    }
  }

  lemma CountSnoc2<J>(log: seq<Effect<J>>, a: Effect<J>, b: Effect<J>)
    ensures forall k ::
      Count(log + [a, b], k) == Count(log, k) + (if KindOf(a) == k then 1 else 0) + (if KindOf(b) == k then 1 else 0)
  {
    CountSnoc(log, a);
    CountSnoc(log + [a], b);
    assert log + [a] + [b] == log + [a, b];
  }

  lemma ExtendOpened2<J>(log: seq<Effect<J>>, id: string, a: Effect<J>, b: Effect<J>)
    requires |log| >= 4 && log[..4] == Opening(id) && (forall i | 4 <= i < |log| :: Late(log[i]))
    requires Late(a) && Late(b)
    ensures var l := log + [a, b];
      |l| >= 4 && l[..4] == Opening(id) && (forall i | 4 <= i < |l| :: Late(l[i]))
  {
    ExtendOpened(log, id, a);
    ExtendOpened(log + [a], id, b);
    assert log + [a] + [b] == log + [a, b];
  }

  /** The listener's first two actions (`clearTimeout`, `removeListener`). */
  lemma ClearOpened<J>(w: Wait<J>)
    requires Opened(w) && w.listening
    ensures Opened(w.(timerArmed := false, listening := false,
                      log := w.log + [ClearTimer, RemoveListener]))
  {
    CountSnoc2(w.log, ClearTimer, RemoveListener);
    ExtendOpened2(w.log, w.correlationId, ClearTimer, RemoveListener);
  }

  /** The listener's last two actions (`resolve`, `unsubscribe`). */
  lemma ResolveOpened<J>(w: Wait<J>, v: J)
    requires Opened(w) && w.stage != Awaiting
    requires !w.listening && !w.timerArmed && Count(w.log, KResolve) == 0
    ensures var ch := ReplyChannel(w.correlationId);
      Opened(w.(promise := Settle(w.promise, Resolved(v)), subscribed := false,
                log := w.log + [Resolve(v), Unsubscribe(ch)]))
  {
    var ch := ReplyChannel(w.correlationId);
    CountSnoc2(w.log, Resolve(v), Unsubscribe(ch));
    ExtendOpened2(w.log, w.correlationId, Resolve(v), Unsubscribe(ch));
  }

  lemma ReplyOpened<J>(parse: string -> Option<J>, w: Wait<J>, body: string)
    requires Opened(w) && w.listening
    ensures Opened(OnReply(parse, w, body))
  {
    var c := w.(timerArmed := false, listening := false,
                log := w.log + [ClearTimer, RemoveListener]);
    ClearOpened(w);
    match parse(body)
    case None =>
    case Some(v) =>
      assert Opened(Loose(c));
      ResolveOpened(Loose(c), v);
      var ch := ReplyChannel(w.correlationId);
      var s := c.(promise := Settle(w.promise, Resolved(v)), subscribed := false,
                  log := c.log + [Resolve(v), Unsubscribe(ch)]);
      assert OnReply(parse, w, body) == Deliver(s);
      DeliverOpened(s);
  }

  lemma TimeoutOpened<J>(w: Wait<J>)
    requires Opened(w) && w.timerArmed && !w.faulted
    ensures Opened(OnTimeout(w))
  {
    CountSnoc(w.log, Reject(TimeoutMessage));
    ExtendOpened(w.log, w.correlationId, Reject(TimeoutMessage));
    var s := w.(timerArmed := false, promise := Settle(w.promise, Rejected(TimeoutMessage)),
                log := w.log + [Reject(TimeoutMessage)]);
    DeliverOpened(s);
  }

  lemma StepOpened<J>(parse: string -> Option<J>, w: Wait<J>, e: Event)
    requires Opened(w)
    ensures Opened(Step(parse, w, e))
  {
    if !w.faulted {
      match e
      case SubscribeOk =>
      case SubscribeFailed(_) =>
      case PublishOk =>
        if w.stage == Publishing {
          DeliverOpened(w.(stage := Awaiting));
        }
      case PublishFailed(m) =>
        if w.stage == Publishing { SendOpened(w, ServerError(m)); }
      case Message(ch, body) =>
        if w.listening && ch == ReplyChannel(w.correlationId) { ReplyOpened(parse, w, body); }
      case TimerFired =>
        if w.timerArmed { TimeoutOpened(w); }
    }
  }

  /** Every step keeps the invariant. */
  lemma StepInv<J>(parse: string -> Option<J>, w: Wait<J>, e: Event)
    requires Inv(w)
    ensures Inv(Step(parse, w, e))
  {
    if Opened(w) {
      StepOpened(parse, w, e);
    } else if SubscribePending(w) {
      match e
      case SubscribeOk => OpenAfterSubscribe(parse, w);
      case _ =>
    }
  }

  /** Every trace keeps the invariant. */
  lemma {:induction false} RunInv<J>(parse: string -> Option<J>, w: Wait<J>, events: seq<Event>)
    requires Inv(w)
    ensures Inv(Run(parse, w, events))
    decreases |events|
  {
    if |events| > 0 {
      StepInv(parse, w, events[0]);
      RunInv(parse, Step(parse, w, events[0]), events[1..]);
    }
  }

  /** Every state a request can reach keeps the invariant. */
  lemma HandleInv<J>(publisher: Option<Client>, subscriber: Option<Client>, correlationId: string,
                     parse: string -> Option<J>, events: seq<Event>)
    ensures var w := Handle(publisher, subscriber, correlationId, parse, events);
      Inv(w) && w.correlationId == correlationId
  {
    BeginInv<J>(publisher, subscriber, correlationId);
    RunInv(parse, Begin<J>(publisher, subscriber, correlationId), events);
  }

  /** Folding over a concatenated trace is folding over each part in turn. */
  lemma {:induction false} RunAppend<J>(parse: string -> Option<J>, w: Wait<J>, a: seq<Event>, b: seq<Event>)
    ensures Run(parse, w, a + b) == Run(parse, Run(parse, w, a), b)
    decreases |a|
  {
    if |a| > 0 {
      assert (a + b)[0] == a[0] && (a + b)[1..] == a[1..] + b;
      RunAppend(parse, Step(parse, w, a[0]), a[1..], b);
    } else {
      assert a + b == b;
    }
  }

  lemma RunSnoc<J>(parse: string -> Option<J>, w: Wait<J>, a: seq<Event>, e: Event)
    ensures Run(parse, w, a + [e]) == Step(parse, Run(parse, w, a), e)
  {
    RunAppend(parse, w, a, [e]);
    assert [e][1..] == [];
  }

  /** Once the reply is sent and neither the listener nor the timer is live,
      no event changes anything. */
  lemma {:induction false} QuiescentStaysPut<J>(parse: string -> Option<J>, w: Wait<J>, events: seq<Event>)
    requires w.stage == Replied && !w.listening && !w.timerArmed
    ensures Run(parse, w, events) == w
    decreases |events|
  {
    if |events| > 0 {
      assert Step(parse, w, events[0]) == w;
      QuiescentStaysPut(parse, w, events[1..]);
    }
  }

  /** The guard: when either connection is not ready the route answers 503
      with the 'Redis not available' body and never subscribes or publishes,
      whatever happens afterwards. */
  lemma NotReadyAnswers503<J>(publisher: Option<Client>, subscriber: Option<Client>, correlationId: string,
                              parse: string -> Option<J>, events: seq<Event>)
    requires !BothReady(publisher, subscriber)
    ensures var w := Handle(publisher, subscriber, correlationId, parse, events);
      && w.reply == Some(Unavailable(UnavailableMessage, UserService))
      && StatusCode(w.reply.value) == 503
      && w.log == [Respond(w.reply.value)]
      && !w.subscribed && !w.listening && !w.timerArmed
  {
    QuiescentStaysPut(parse, Begin<J>(publisher, subscriber, correlationId), events);
  }

  /** The 503 answer happens exactly when the guard fails. */
  lemma UnavailableIffNotReady<J>(publisher: Option<Client>, subscriber: Option<Client>, correlationId: string,
                                  parse: string -> Option<J>, events: seq<Event>)
    ensures var w := Handle(publisher, subscriber, correlationId, parse, events);
      (w.reply.Some? && w.reply.value.Unavailable?) <==> !BothReady(publisher, subscriber)
  {
    HandleInv(publisher, subscriber, correlationId, parse, events);
    if !BothReady(publisher, subscriber) {
      NotReadyAnswers503(publisher, subscriber, correlationId, parse, events);
    } else {
      var w := Handle(publisher, subscriber, correlationId, parse, events);
      if Refused(w) {
        // Refused states are only entered by a failing guard.
        RefusedOnlyFromGuard(parse, Begin<J>(publisher, subscriber, correlationId), events);
      }
    }
  }

  lemma {:induction false} RefusedOnlyFromGuard<J>(parse: string -> Option<J>, w: Wait<J>, events: seq<Event>)
    requires Inv(w) && !Refused(w)
    ensures !Refused(Run(parse, w, events))
    decreases |events|
  {
    if |events| > 0 {
      var s := Step(parse, w, events[0]);
      StepInv(parse, w, events[0]);
      assert !Refused(s) by {
        if SubscribePending(w) {
          assert s.log[0] == Subscribe(ReplyChannel(w.correlationId));
        } else if SubscribeRejected(w) {
          assert s == w;
        } else {
          assert |s.log| >= 4;
        }
      }
      RefusedOnlyFromGuard(parse, s, events[1..]);
    }
  }

  /** Subscribe before publish: in every trace, each publish is the request
      envelope on `user_requests`, and it comes after the subscribe to the
      reply channel, which is the handler's first effect. */
  lemma SubscribeBeforePublish<J>(publisher: Option<Client>, subscriber: Option<Client>, correlationId: string,
                                  parse: string -> Option<J>, events: seq<Event>)
    ensures var log := Handle(publisher, subscriber, correlationId, parse, events).log;
      forall j | 0 <= j < |log| && log[j].Publish? ::
        && 0 < j && log[0] == Subscribe(ReplyPrefix + correlationId)
        && log[j] == Publish(RequestChannel, Envelope(GetUsersAction, correlationId, ReplyPrefix + correlationId))
  {
    HandleInv(publisher, subscriber, correlationId, parse, events);
    var w := Handle(publisher, subscriber, correlationId, parse, events);
    forall j | 0 <= j < |w.log| && w.log[j].Publish?
      ensures 0 < j && w.log[0] == Subscribe(ReplyPrefix + correlationId)
      ensures w.log[j] == Publish(RequestChannel, Envelope(GetUsersAction, correlationId, ReplyPrefix + correlationId))
    {
      if Opened(w) && j < 4 {
        assert w.log[j] == w.log[..4][j];
        assert w.log[0] == w.log[..4][0];
      }
    }
  }

  /** The states before `subscribe` has completed: the guard's answer, the
      pending subscribe, or its rejection. */
  ghost predicate NotYetSubscribed<J>(w: Wait<J>) {
    Refused(w) || SubscribePending(w) || SubscribeRejected(w)
  }

  lemma {:induction false} NoSubscribeOkStaysUnsubscribed<J>(parse: string -> Option<J>, w: Wait<J>,
                                                            events: seq<Event>)
    requires NotYetSubscribed(w)
    requires forall i | 0 <= i < |events| :: events[i] != SubscribeOk
    ensures NotYetSubscribed(Run(parse, w, events))
    decreases |events|
  {
    if |events| > 0 {
      var n := Step(parse, w, events[0]);
      assert NotYetSubscribed(n);
      NoSubscribeOkStaysUnsubscribed(parse, n, events[1..]);
    }
  }

  /** The `await` on `subscribe`: until the trace delivers `SubscribeOk`,
      no timer is armed, no listener is added and nothing is published. */
  lemma PublishNeedsSubscribeOk<J>(publisher: Option<Client>, subscriber: Option<Client>, correlationId: string,
                                   parse: string -> Option<J>, events: seq<Event>)
    requires forall i | 0 <= i < |events| :: events[i] != SubscribeOk
    ensures var log := Handle(publisher, subscriber, correlationId, parse, events).log;
      forall j | 0 <= j < |log| :: !log[j].ArmTimer? && !log[j].AddListener? && !log[j].Publish?
  {
    NoSubscribeOkStaysUnsubscribed(parse, Begin<J>(publisher, subscriber, correlationId), events);
  }

  lemma CountOne<J>(e: Effect<J>)
    ensures forall k :: Count([e], k) == (if KindOf(e) == k then 1 else 0)
  {
    var none: seq<Effect<J>> := [];
    CountSnoc(none, e);
    assert none + [e] == [e];
  }

  /** Single shot: in every trace the handler subscribes, publishes,
      unsubscribes, resolves, rejects and answers at most once each, and it
      has answered exactly when a reply is recorded. */
  lemma AtMostOnce<J>(publisher: Option<Client>, subscriber: Option<Client>, correlationId: string,
                      parse: string -> Option<J>, events: seq<Event>)
    ensures var w := Handle(publisher, subscriber, correlationId, parse, events);
      && Count(w.log, KSubscribe) <= 1 && Count(w.log, KPublish) <= 1
      && Count(w.log, KUnsubscribe) <= 1
      && Count(w.log, KResolve) <= 1 && Count(w.log, KReject) <= 1
      && Count(w.log, KRespond) == (if w.reply.Some? then 1 else 0)
  {
    HandleInv(publisher, subscriber, correlationId, parse, events);
    var w := Handle(publisher, subscriber, correlationId, parse, events);
    if Refused(w) {
      CountOne(w.log[0]);
    } else if SubscribePending(w) {
      CountOne(w.log[0]);
    } else if SubscribeRejected(w) {
      CountOne(w.log[0]);
      CountSnoc([w.log[0]], w.log[1]);
      assert [w.log[0]] + [w.log[1]] == w.log;
    }
  }

  /** A 200 answer carries the value the first matching message resolved
      with, and by then the timer is cleared, the listener removed and the
      reply channel unsubscribed. */
  lemma SuccessMeansCleanedUp<J>(publisher: Option<Client>, subscriber: Option<Client>, correlationId: string,
                                 parse: string -> Option<J>, events: seq<Event>)
    ensures var w := Handle(publisher, subscriber, correlationId, parse, events);
      w.reply.Some? && w.reply.value.Success? ==>
        && Resolve(w.reply.value.data) in w.log
        && w.promise == Resolved(w.reply.value.data)
        && StatusCode(w.reply.value) == 200
        && !w.timerArmed && !w.listening && !w.subscribed
  {
    HandleInv(publisher, subscriber, correlationId, parse, events);
  }

  /** The listener never outlives the subscription, and a settled promise
      was rejected only by the timer. */
  lemma ListenerWithinSubscription<J>(publisher: Option<Client>, subscriber: Option<Client>, correlationId: string,
                                      parse: string -> Option<J>, events: seq<Event>)
    ensures var w := Handle(publisher, subscriber, correlationId, parse, events);
      && (w.listening ==> w.subscribed)
      && (w.timerArmed ==> w.listening && w.promise.Pending?)
      && (w.promise.Rejected? ==> w.promise.reason == TimeoutMessage)
  {
    HandleInv(publisher, subscriber, correlationId, parse, events);
  }

  /** Distinct correlation ids give distinct reply channels. */
  lemma ReplyChannelInjective(a: string, b: string)
    ensures ReplyChannel(a) == ReplyChannel(b) <==> a == b
  {
    if ReplyChannel(a) == ReplyChannel(b) {
      assert a == ReplyChannel(a)[|ReplyPrefix|..];
    }
  }

  /** Routing: a reply addressed to another request (another correlation id)
      leaves this request's wait exactly as it was. */
  lemma OtherRequestsReplyIgnored<J>(parse: string -> Option<J>, w: Wait<J>, otherId: string, body: string)
    requires otherId != w.correlationId
    ensures Step(parse, w, Message(ReplyChannel(otherId), body)) == w
  {
    ReplyChannelInjective(otherId, w.correlationId);
  }

  /** A message is "foreign" when it is on a channel other than the reply channel. */
  predicate Foreign(e: Event, correlationId: string) {
    e.Message? && e.channel != ReplyChannel(correlationId)
  }

  /** Any run of messages on other channels changes nothing. */
  lemma {:induction false} ForeignMessagesIgnored<J>(parse: string -> Option<J>, w: Wait<J>, events: seq<Event>)
    requires forall i | 0 <= i < |events| :: Foreign(events[i], w.correlationId)
    ensures Run(parse, w, events) == w
    decreases |events|
  {
    if |events| > 0 {
      ForeignMessagesIgnored(parse, Step(parse, w, events[0]), events[1..]);
    }
  }

  /** Once the listener is gone, no run of messages, on any channel and
      including duplicates of the reply, changes anything. */
  lemma {:induction false} LateMessagesIgnored<J>(parse: string -> Option<J>, w: Wait<J>, events: seq<Event>)
    requires !w.listening
    requires forall i | 0 <= i < |events| :: events[i].Message?
    ensures Run(parse, w, events) == w
    decreases |events|
  {
    if |events| > 0 {
      LateMessagesIgnored(parse, Step(parse, w, events[0]), events[1..]);
    }
  }

  lemma ReplyStep<J>(parse: string -> Option<J>, w: Wait<J>, body: string)
    requires Opened(w) && w.listening && parse(body).Some?
    ensures var ch := ReplyChannel(w.correlationId);
      var r := Step(parse, w, Message(ch, body));
      var v := parse(body).value;
      && r.log == w.log + [ClearTimer, RemoveListener, Resolve(v), Unsubscribe(ch)]
                        + (if w.stage == Awaiting then [Respond(Success(v))] else [])
      && !r.timerArmed && !r.listening && !r.subscribed
      && (w.promise.Pending? ==> r.promise == Resolved(v))
      && (!w.promise.Pending? ==> r.promise == w.promise && r.reply == w.reply)
      && (w.stage == Awaiting ==> r.reply == Some(Success(v)))
  {
    var ch := ReplyChannel(w.correlationId);
    var v := parse(body).value;
    var c := w.(timerArmed := false, listening := false, log := w.log + [ClearTimer, RemoveListener]);
    var s := c.(promise := Settle(w.promise, Resolved(v)), subscribed := false,
                log := c.log + [Resolve(v), Unsubscribe(ch)]);
    assert Step(parse, w, Message(ch, body)) == OnReply(parse, w, body) == Deliver(s);
    assert s.log == w.log + [ClearTimer, RemoveListener, Resolve(v), Unsubscribe(ch)];
  }

  /** The first message on the reply channel, whose body parses to `v`:
      clear the timer, remove the listener, resolve, unsubscribe, in that
      order, then answer 200 if the handler is already awaiting the promise.
      After a timeout it still cleans up, but the promise and any answer
      stay as the timer left them. */
  lemma FirstReplyResolves<J>(publisher: Option<Client>, subscriber: Option<Client>, correlationId: string,
                              parse: string -> Option<J>, events: seq<Event>, body: string)
    requires Handle(publisher, subscriber, correlationId, parse, events).listening
    requires parse(body).Some?
    ensures var w := Handle(publisher, subscriber, correlationId, parse, events);
      var r := Handle(publisher, subscriber, correlationId, parse, events + [Message(ReplyChannel(correlationId), body)]);
      var v := parse(body).value;
      && r.log == w.log + [ClearTimer, RemoveListener, Resolve(v), Unsubscribe(ReplyChannel(correlationId))]
                        + (if w.stage == Awaiting then [Respond(Success(v))] else [])
      && !r.timerArmed && !r.listening && !r.subscribed
      && (w.promise.Pending? ==> r.promise == Resolved(v))
      && (!w.promise.Pending? ==> r.promise == w.promise && r.reply == w.reply)
      && (w.stage == Awaiting ==> r.reply == Some(Success(v)))
  {
    HandleInv(publisher, subscriber, correlationId, parse, events);
    RunSnoc(parse, Begin<J>(publisher, subscriber, correlationId), events, Message(ReplyChannel(correlationId), body));
    ReplyStep(parse, Handle(publisher, subscriber, correlationId, parse, events), body);
  }

  lemma TimeoutStep<J>(parse: string -> Option<J>, w: Wait<J>)
    requires Opened(w) && w.timerArmed
    ensures var r := Step(parse, w, TimerFired);
      && r.promise == Rejected(TimeoutMessage)
      && r.listening && r.subscribed && !r.timerArmed
      && (w.stage == Awaiting ==>
            r.reply == Some(ServerError(TimeoutMessage))
            && r.log == w.log + [Reject(TimeoutMessage), Respond(ServerError(TimeoutMessage))])
      && (w.stage == Publishing ==> r.reply.None? && r.log == w.log + [Reject(TimeoutMessage)])
  {
    var s := w.(timerArmed := false, promise := Settle(w.promise, Rejected(TimeoutMessage)),
                log := w.log + [Reject(TimeoutMessage)]);
    assert Step(parse, w, TimerFired) == OnTimeout(w) == Deliver(s);
    assert w.log + [Reject(TimeoutMessage)] + [Respond(ServerError(TimeoutMessage))]
        == w.log + [Reject(TimeoutMessage), Respond(ServerError(TimeoutMessage))];
  }

  /** The timer firing before any matching message: the promise is rejected
      with 'Timeout waiting for user-service' (a 500 once the handler awaits
      it), and the listener stays registered and the channel subscribed. */
  lemma TimeoutRejects<J>(publisher: Option<Client>, subscriber: Option<Client>, correlationId: string,
                          parse: string -> Option<J>, events: seq<Event>)
    requires Handle(publisher, subscriber, correlationId, parse, events).timerArmed
    ensures var w := Handle(publisher, subscriber, correlationId, parse, events);
      var r := Handle(publisher, subscriber, correlationId, parse, events + [TimerFired]);
      && r.promise == Rejected(TimeoutMessage)
      && r.listening && r.subscribed && !r.timerArmed
      && (w.stage == Awaiting ==>
            r.reply == Some(ServerError(TimeoutMessage)) && StatusCode(r.reply.value) == 500
            && r.log == w.log + [Reject(TimeoutMessage), Respond(ServerError(TimeoutMessage))])
      && (w.stage == Publishing ==> r.reply.None? && r.log == w.log + [Reject(TimeoutMessage)])
  {
    HandleInv(publisher, subscriber, correlationId, parse, events);
    RunSnoc(parse, Begin<J>(publisher, subscriber, correlationId), events, TimerFired);
    TimeoutStep(parse, Handle(publisher, subscriber, correlationId, parse, events));
  }

  /** `/api/health` reports `connected` exactly when `/api/users` gets past
      its guard. */
  lemma ConnectedIffUsersRouteProceeds<J>(publisher: Option<Client>, subscriber: Option<Client>, correlationId: string)
    requires Health(publisher, subscriber).Healthy?
    ensures Health(publisher, subscriber).connected <==> Begin<J>(publisher, subscriber, correlationId).stage == Subscribing
  {
  }

  /** The state right after a successful subscribe and publish. */
  lemma Published<J>(publisher: Option<Client>, subscriber: Option<Client>, correlationId: string,
                     parse: string -> Option<J>)
    requires BothReady(publisher, subscriber)
    ensures var w := Handle(publisher, subscriber, correlationId, parse, [SubscribeOk, PublishOk]);
      && w == Wait(correlationId, Awaiting, true, true, true, Pending, None, false, Opening(correlationId))
      && Opened(w)
  {
    var b := Begin<J>(publisher, subscriber, correlationId);
    OpenAfterSubscribe(parse, b);
    StepOpened(parse, Step(parse, b, SubscribeOk), PublishOk);
    assert [SubscribeOk, PublishOk][1..] == [PublishOk];
  }

  /** A reply on the reply channel, after any number of messages for other
      channels, answers 200 with the parsed body and leaves nothing behind. */
  lemma ReplyScenario<J>(publisher: Option<Client>, subscriber: Option<Client>, correlationId: string,
                         parse: string -> Option<J>, noise: seq<Event>, body: string)
    requires BothReady(publisher, subscriber)
    requires forall i | 0 <= i < |noise| :: Foreign(noise[i], correlationId)
    requires parse(body).Some?
    ensures var ch := ReplyChannel(correlationId);
      var v := parse(body).value;
      var w := Handle(publisher, subscriber, correlationId, parse, [SubscribeOk, PublishOk] + noise + [Message(ch, body)]);
      && w.reply == Some(Success(v))
      && w.log == Opening(correlationId) + [ClearTimer, RemoveListener, Resolve(v), Unsubscribe(ch), Respond(Success(v))]
      && !w.timerArmed && !w.listening && !w.subscribed
  {
    var ch := ReplyChannel(correlationId);
    var b := Begin<J>(publisher, subscriber, correlationId);
    Published(publisher, subscriber, correlationId, parse);
    var p := Run(parse, b, [SubscribeOk, PublishOk]);
    RunAppend(parse, b, [SubscribeOk, PublishOk], noise);
    ForeignMessagesIgnored(parse, p, noise);
    RunSnoc(parse, b, [SubscribeOk, PublishOk] + noise, Message(ch, body));
    ReplyStep(parse, p, body);
  }

  /** No reply on the reply channel: the timer answers 500 'Timeout waiting
      for user-service', and the listener and the subscription are left in
      place. */
  lemma TimeoutScenario<J>(publisher: Option<Client>, subscriber: Option<Client>, correlationId: string,
                           parse: string -> Option<J>, noise: seq<Event>)
    requires BothReady(publisher, subscriber)
    requires forall i | 0 <= i < |noise| :: Foreign(noise[i], correlationId)
    ensures var w := Handle(publisher, subscriber, correlationId, parse, [SubscribeOk, PublishOk] + noise + [TimerFired]);
      && w.reply == Some(ServerError(TimeoutMessage))
      && w.log == Opening(correlationId) + [Reject(TimeoutMessage), Respond(ServerError(TimeoutMessage))]
      && w.listening && w.subscribed && !w.timerArmed
  {
    var b := Begin<J>(publisher, subscriber, correlationId);
    Published(publisher, subscriber, correlationId, parse);
    var p := Run(parse, b, [SubscribeOk, PublishOk]);
    RunAppend(parse, b, [SubscribeOk, PublishOk], noise);
    ForeignMessagesIgnored(parse, p, noise);
    RunSnoc(parse, b, [SubscribeOk, PublishOk] + noise, TimerFired);
    TimeoutStep(parse, p);
  }

  /** A reply that arrives while `publish` is still outstanding is kept by
      the promise and answered once `publish` completes. */
  lemma EarlyReplyScenario<J>(publisher: Option<Client>, subscriber: Option<Client>, correlationId: string,
                              parse: string -> Option<J>, body: string)
    requires BothReady(publisher, subscriber)
    requires parse(body).Some?
    ensures var w := Handle(publisher, subscriber, correlationId, parse,
                            [SubscribeOk, Message(ReplyChannel(correlationId), body), PublishOk]);
      w.reply == Some(Success(parse(body).value)) && !w.listening && !w.subscribed
  {
    var ch := ReplyChannel(correlationId);
    var b := Begin<J>(publisher, subscriber, correlationId);
    OpenAfterSubscribe(parse, b);
    var o := Step(parse, b, SubscribeOk);
    ReplyStep(parse, o, body);
    assert [SubscribeOk, Message(ch, body), PublishOk] == [SubscribeOk] + [Message(ch, body)] + [PublishOk];
    RunSnoc(parse, b, [SubscribeOk] + [Message(ch, body)], PublishOk);
    RunSnoc(parse, b, [SubscribeOk], Message(ch, body));
    RunSnoc(parse, b, [], SubscribeOk);
    assert [] + [SubscribeOk] == [SubscribeOk];
  }

  /** A failed publish answers 500 with the transport's message, but the
      timer and the listener installed before it stay live. */
  lemma PublishFailureScenario<J>(publisher: Option<Client>, subscriber: Option<Client>, correlationId: string,
                                  parse: string -> Option<J>, message: string)
    requires BothReady(publisher, subscriber)
    ensures var w := Handle(publisher, subscriber, correlationId, parse, [SubscribeOk, PublishFailed(message)]);
      && w.reply == Some(ServerError(message)) && StatusCode(w.reply.value) == 500
      && w.timerArmed && w.listening && w.subscribed
  {
    var b := Begin<J>(publisher, subscriber, correlationId);
    var o := Step(parse, b, SubscribeOk);
    assert o.stage == Publishing && o.timerArmed && o.listening && o.subscribed;
    assert [SubscribeOk, PublishFailed(message)][1..] == [PublishFailed(message)];
    assert Run(parse, o, [PublishFailed(message)]) == Step(parse, o, PublishFailed(message));
  }

  /** `subscribe` rejecting: the `catch` answers 500 with its message, and
      no timer, listener or publish follows, whatever happens afterwards. */
  lemma SubscribeFailureAnswers500<J>(publisher: Option<Client>, subscriber: Option<Client>, correlationId: string,
                                      parse: string -> Option<J>, message: string, events: seq<Event>)
    requires BothReady(publisher, subscriber)
    ensures var w := Handle(publisher, subscriber, correlationId, parse, [SubscribeFailed(message)] + events);
      && w.reply == Some(ServerError(message)) && StatusCode(w.reply.value) == 500
      && w.log == [Subscribe(ReplyChannel(correlationId)), Respond(ServerError(message))]
      && !w.subscribed && !w.timerArmed && !w.listening
  {
    var b := Begin<J>(publisher, subscriber, correlationId);
    var f := Step(parse, b, SubscribeFailed(message));
    RunAppend(parse, b, [SubscribeFailed(message)], events);
    assert [SubscribeFailed(message)][1..] == [];
    assert Run(parse, b, [SubscribeFailed(message)]) == f;
    QuiescentStaysPut(parse, f, events);
  }

  /** `publish` rejecting while the handler waits on it: the answer is 500
      with the transport's message, and the timer, the listener, the
      subscription and the promise are left exactly as they were. */
  lemma PublishFailedStep<J>(parse: string -> Option<J>, w: Wait<J>, message: string)
    requires w.stage == Publishing && !w.faulted
    ensures var r := Step(parse, w, PublishFailed(message));
      && r.stage == Replied && r.reply == Some(ServerError(message))
      && r.log == w.log + [Respond(ServerError(message))]
      && r.timerArmed == w.timerArmed && r.listening == w.listening
      && r.subscribed == w.subscribed && r.promise == w.promise
  {
  }

  /** The same for every trace that leaves the handler waiting on `publish`. */
  lemma PublishFailureAnswers500<J>(publisher: Option<Client>, subscriber: Option<Client>, correlationId: string,
                                    parse: string -> Option<J>, events: seq<Event>, message: string)
    requires var w := Handle(publisher, subscriber, correlationId, parse, events);
      w.stage == Publishing && !w.faulted
    ensures var w := Handle(publisher, subscriber, correlationId, parse, events);
      var r := Handle(publisher, subscriber, correlationId, parse, events + [PublishFailed(message)]);
      && r.reply == Some(ServerError(message)) && StatusCode(r.reply.value) == 500
      && r.log == w.log + [Respond(ServerError(message))]
      && r.timerArmed == w.timerArmed && r.listening == w.listening
      && r.subscribed == w.subscribed && r.promise == w.promise
  {
    RunSnoc(parse, Begin<J>(publisher, subscriber, correlationId), events, PublishFailed(message));
    PublishFailedStep(parse, Handle(publisher, subscriber, correlationId, parse, events), message);
  }
}

=== FILE: uptime.dfy ===
/** The dashboard's uptime display (`updateUptime`,
    srcs/nginx/html/index.ts:176-187 and its compiled twin
    srcs/nginx/html/app.js:29-39): elapsed milliseconds become
    `HH:MM:SS` by integer division and remainder, each part rendered with
    `toString()` and left-padded to two characters with `'0'`.

    Elapsed time is a `nat`: for non-negative integers `Math.floor(a / b)`
    and `%` agree with Dafny's `/` and `%`. */
module Uptime {
  import opened Basics

  const MsPerHour: nat := 3600000
  const MsPerMinute: nat := 60000
  const MsPerSecond: nat := 1000

  /** Hours, minutes and seconds of an elapsed time. */
  datatype Hms = Hms(hours: nat, minutes: nat, seconds: nat)

  /** The milliseconds an `Hms` stands for. */
  function Millis(t: Hms): nat {
    t.hours * MsPerHour + t.minutes * MsPerMinute + t.seconds * MsPerSecond
  }

  /** Lexicographic order on (hours, minutes, seconds). */
  predicate LexLess(a: Hms, b: Hms) {
    || a.hours < b.hours
    || (a.hours == b.hours && a.minutes < b.minutes)
    || (a.hours == b.hours && a.minutes == b.minutes && a.seconds < b.seconds)
  }

  /** The three divisions of `updateUptime`. Minutes and seconds stay below
      60, and the parts rebuild the elapsed time to within one second from
      below. */
  function Decompose(elapsed: nat): (t: Hms)
    ensures t.minutes < 60 && t.seconds < 60
    ensures Millis(t) <= elapsed < Millis(t) + MsPerSecond
  {
    var t := Hms(elapsed / MsPerHour, (elapsed % MsPerHour) / MsPerMinute, (elapsed % MsPerMinute) / MsPerSecond);
    DecomposeBounds(elapsed);
    t
  }

  lemma DecomposeBounds(elapsed: nat)
    ensures var h, m, s := elapsed / MsPerHour, (elapsed % MsPerHour) / MsPerMinute, (elapsed % MsPerMinute) / MsPerSecond;
      && m < 60 && s < 60
      && h * MsPerHour + m * MsPerMinute + s * MsPerSecond <= elapsed
      && elapsed < h * MsPerHour + m * MsPerMinute + s * MsPerSecond + MsPerSecond
  {
    var h := elapsed / MsPerHour;
    var r := elapsed % MsPerHour;
    assert elapsed == h * MsPerHour + r && r < MsPerHour;
    var m := r / MsPerMinute;
    var r2 := r % MsPerMinute;
    assert r == m * MsPerMinute + r2 && r2 < MsPerMinute;
    assert m < 60;
    // elapsed = (60h + m) * 60000 + r2, so elapsed % 60000 == r2
    assert elapsed == (h * 60 + m) * MsPerMinute + r2;
    ModMinute(h * 60 + m, r2);
    assert elapsed % MsPerMinute == r2;
    var s := r2 / MsPerSecond;
    assert r2 == s * MsPerSecond + r2 % MsPerSecond;
    assert s < 60;
  }

  lemma ModMinute(q: nat, r: nat)
    requires r < MsPerMinute
    ensures (q * MsPerMinute + r) % MsPerMinute == r
  {
  }

  /** Monotone: a later time never shows a lexicographically earlier
      (hours, minutes, seconds). */
  lemma DecomposeMonotone(e1: nat, e2: nat)
    requires e1 <= e2
    ensures !LexLess(Decompose(e2), Decompose(e1))
  {
  }

  /** A lexicographic step up between well-formed parts is worth at least
      one whole second. */
  lemma LexGap(a: Hms, b: Hms)
    requires a.minutes < 60 && a.seconds < 60
    requires LexLess(a, b)
    ensures Millis(a) + MsPerSecond <= Millis(b)
  {
  }

  /** `Decompose` is the only split of `elapsed` into hours, minutes below
      60 and seconds below 60 that rebuilds it to within one second. */
  lemma DecomposeUnique(elapsed: nat, t: Hms)
    requires t.minutes < 60 && t.seconds < 60
    requires Millis(t) <= elapsed < Millis(t) + MsPerSecond
    ensures t == Decompose(elapsed)
  {
    var d := Decompose(elapsed);
    if LexLess(t, d) {
      LexGap(t, d);
    } else if LexLess(d, t) {
      LexGap(d, t);
    }
  }

  // ---- Rendering ------------------------------------------------------

  predicate IsDigit(c: char) {
    '0' <= c <= '9'
  }

  predicate AllDigits(s: string) {
    forall i | 0 <= i < |s| :: IsDigit(s[i])
  }

  function DigitChar(d: nat): char
    requires d < 10
  {
    "0123456789"[d]
  }

  function DigitValue(c: char): nat
    requires IsDigit(c)
  {
    (c as int - '0' as int) as nat
  }

  /** `Number.prototype.toString()` of a non-negative integer: its decimal
      digits, most significant first, with no leading zero. */
  function DecimalString(n: nat): (s: string)
    ensures |s| >= 1 && AllDigits(s)
    ensures (s[0] == '0') <==> (n == 0)
    ensures (|s| == 1) <==> (n < 10)
    decreases n
  {
    if n < 10 then [DigitChar(n)] else DecimalString(n / 10) + [DigitChar(n % 10)]
  }

  /** The value of a string of decimal digits. */
  function ParseDecimal(s: string): nat
    requires AllDigits(s)
    decreases |s|
  {
    if |s| == 0 then 0 else ParseDecimal(s[..|s| - 1]) * 10 + DigitValue(s[|s| - 1])
  }

  lemma DigitRoundTrip(d: nat)
    requires d < 10
    ensures IsDigit(DigitChar(d)) && DigitValue(DigitChar(d)) == d
  {
  }

  /** Reading the decimal digits back gives the number. */
  lemma {:induction false} DecimalRoundTrip(n: nat)
    ensures ParseDecimal(DecimalString(n)) == n
    decreases n
  {
    var s := DecimalString(n);
    DigitRoundTrip(n % 10);
    if n < 10 {
      assert s[..0] == [];
    } else {
      DecimalRoundTrip(n / 10);
      assert s[..|s| - 1] == DecimalString(n / 10);
    }
  }

  /** `s.padStart(width, fill)` with a one-character filler. */
  function PadStart(s: string, width: nat, fill: char): (r: string)
    ensures |r| == if |s| >= width then |s| else width
    ensures r[|r| - |s|..] == s
    ensures forall i | 0 <= i < |r| - |s| :: r[i] == fill
  {
    if |s| >= width then s else seq(width - |s|, _ => fill) + s
  }

  /** Leading zeros do not change a decimal value. */
  lemma {:induction false} LeadingZeros(z: nat, s: string)
    requires AllDigits(s)
    ensures AllDigits(seq(z, _ => '0') + s)
    ensures ParseDecimal(seq(z, _ => '0') + s) == ParseDecimal(s)
    decreases |s|
  {
    var p := seq(z, _ => '0') + s;
    if |s| == 0 {
      assert p == seq(z, _ => '0');
      ZerosParseToZero(z);
    } else {
      LeadingZeros(z, s[..|s| - 1]);
      assert p[..|p| - 1] == seq(z, _ => '0') + s[..|s| - 1];
    }
  }

  lemma {:induction false} ZerosParseToZero(z: nat)
    ensures AllDigits(seq(z, _ => '0')) && ParseDecimal(seq(z, _ => '0')) == 0
    decreases z
  {
    if z > 0 {
      ZerosParseToZero(z - 1);
      assert seq(z, _ => '0')[..z - 1] == seq(z - 1, _ => '0');
    }
  }

  /** One field of the display: `n.toString().padStart(2, '0')`. */
  function Field(n: nat): (f: string)
    ensures AllDigits(f) && |f| >= 2
    ensures n < 100 ==> |f| == 2
  {
    PadStart(DecimalString(n), 2, '0')
  }

  /** A field reads back as the number it shows. */
  lemma FieldRoundTrip(n: nat)
    ensures ParseDecimal(Field(n)) == n
  {
    var d := DecimalString(n);
    var z := if |d| >= 2 then 0 else 2 - |d|;
    assert Field(n) == seq(z, _ => '0') + d;
    LeadingZeros(z, d);
    DecimalRoundTrip(n);
  }

  /** The uptime text: `HH:MM:SS`, with hours as wide as they need to be. */
  function Format(t: Hms): string {
    Field(t.hours) + ":" + Field(t.minutes) + ":" + Field(t.seconds)
  }

  /** `updateUptime`'s text. It always has the uptime shape: hours of at
      least two digits, `:`, two minute digits, `:`, two second digits. */
  function FormatUptime(elapsed: nat): (u: string)
    ensures Shaped(u)
  {
    var t := Decompose(elapsed);
    JoinedShaped(Field(t.hours), Field(t.minutes), Field(t.seconds));
    Format(t)
  }

  /** Where the parts sit in `h:m:s` when minutes and seconds are two wide. */
  lemma Slices(h: string, m: string, s: string)
    requires |m| == 2 && |s| == 2
    ensures var u := h + ":" + m + ":" + s;
      && |u| == |h| + 6 && u[|u| - 3] == ':' && u[|u| - 6] == ':'
      && u[..|u| - 6] == h && u[|u| - 5..|u| - 3] == m && u[|u| - 2..] == s
  {
  }

  /** The uptime text shape: at least two hour digits, then `:`, two
      minute digits, `:`, two second digits. */
  predicate Shaped(u: string) {
    && |u| >= 8
    && u[|u| - 3] == ':' && u[|u| - 6] == ':'
    && AllDigits(u[..|u| - 6]) && AllDigits(u[|u| - 5..|u| - 3]) && AllDigits(u[|u| - 2..])
  }

  lemma JoinedShaped(h: string, m: string, s: string)
    requires AllDigits(h) && AllDigits(m) && AllDigits(s)
    requires |h| >= 2 && |m| == 2 && |s| == 2
    ensures Shaped(h + ":" + m + ":" + s)
  {
    Slices(h, m, s);
  }

  /** Reads an `HH:MM:SS` text back into its parts. */
  function ParseUptime(u: string): Option<Hms> {
    if Shaped(u) then Some(Hms(ParseDecimal(u[..|u| - 6]), ParseDecimal(u[|u| - 5..|u| - 3]), ParseDecimal(u[|u| - 2..])))
    else None
  }

  lemma ParseJoined(h: string, m: string, s: string)
    requires AllDigits(h) && AllDigits(m) && AllDigits(s)
    requires |h| >= 2 && |m| == 2 && |s| == 2
    ensures ParseUptime(h + ":" + m + ":" + s) == Some(Hms(ParseDecimal(h), ParseDecimal(m), ParseDecimal(s)))
  {
    Slices(h, m, s);
    JoinedShaped(h, m, s);
  }

  /** The display is faithful: reading the text back gives exactly the
      hours, minutes and seconds `updateUptime` computed. */
  lemma FormatUptimeRoundTrip(elapsed: nat)
    ensures ParseUptime(FormatUptime(elapsed)) == Some(Decompose(elapsed))
  {
    FormatRoundTrip(Decompose(elapsed));
  }

  lemma FormatRoundTrip(t: Hms)
    requires t.minutes < 60 && t.seconds < 60
    ensures ParseUptime(Format(t)) == Some(t)
  {
    ParseJoined(Field(t.hours), Field(t.minutes), Field(t.seconds));
    FieldRoundTrip(t.hours);
    FieldRoundTrip(t.minutes);
    FieldRoundTrip(t.seconds);
  }
}
